=== FILE: README.md ===
# Pong: the per-tick simulation, modelled in Dafny

This project models the game logic of a two-player Pong game written in
JavaScript (`game.js`). The game keeps one state record: two paddles, a ball
and a `running` flag. Each paddle has a fixed `x`, a moving `y`, a score and
two intent flags, `up` and `down`. The ball has a position `x`, `y` and a
velocity `vx`, `vy`. Every animation frame calls `update()`, which advances
the record by one tick:

1. move the paddles and clamp them into the field;
2. move the ball;
3. bounce it off the top and bottom walls;
4. resolve the left paddle, then the right paddle;
5. award a point when the ball has left the field on either side.

A point either ends the match (`checkWin()`) or serves a new ball
(`reset()`). `reset(true)` starts a new match.

The model is purely functional, over exact `real` arithmetic:

- `numeric.dfy`, module `Numeric`: `Math.abs/max/min/sign`, JavaScript's
  `x || 1`, and `clamp`.
- `state.dfy`, module `PongState`: the constants, the `Paddle`, `Ball` and
  `State` records, the initial record, and the invariant `Inv`. `Inv` says the
  paddles sit at their `x`, both paddles are inside the field, and the ball
  is vertically inside the field.
- `rules.dfy`, module `Rules`: `CheckWin`, `Reset` and the pause toggle.
- `simulation.dfy`, module `Simulation`: `update` as `Step`, split into one
  function per phase, in source order.
- `properties.dfy`, module `Properties`: lemmas about a single tick.
- `run.dfy`, module `Play`: many ticks in a row, with the input flags
  sampled before each tick.
- `scenarios.dfy`, module `Scenarios`: concrete ticks worked through.

`Math.random()` in `reset` becomes two parameters, `dirX` and `dirY`, of type
`Dir`, whose only values are -1 and 1. `Step` takes one such pair and passes
it to whichever point branch fires. At most one branch can fire per tick:
after a point the ball is either frozen beyond the left edge or back at the
centre. So one pair covers every run of the source.

Three behaviours of the code worth knowing:

- A ball leaving at the left edge (`ball.x + BALL_SIZE < 0`) raises the
  right paddle's score (game.js:120-122), and one leaving at the right edge
  raises the left paddle's score (game.js:124-126). `Scenarios.DecidingPoint`
  shows the left paddle winning at the right edge.
- The horizontal speed grows with every paddle hit but is not monotone
  between full resets: every soft reset after a point serves at the start
  speed again (game.js:53-54).
  `Properties.RallySpeedNeverDrops` states the monotonicity that does hold,
  within a rally.
- A won game can be resumed without a reset. The pause key flips `running`
  whatever the score (game.js:31), so it also restarts a finished match
  (`Scenarios.ResumeAfterWin`).

## Model

| member | source | states |
|---|---|---|
| Numeric.Abs | game.js:97 | `Math.abs`: the result is non-negative and equals the argument or its negation |
| Numeric.Max | game.js:44 | `Math.max`: the result is at least both arguments and equals one of them |
| Numeric.Min | game.js:44 | `Math.min`: the result is at most both arguments and equals one of them |
| Numeric.Sign | game.js:100 | `Math.sign`: the result is -1, 0 or 1, is zero exactly for zero, and times the argument gives its absolute value |
| Numeric.OrOne | game.js:100 | the logical-or default of `vy` to 1: zero becomes 1, any other value is returned unchanged |
| Numeric.Clamp | game.js:43-45 | with lo <= hi the result lies in [lo, hi], is the value itself when already inside, and is the nearer end otherwise; with an empty interval the lower end wins |
| Numeric.ClampIdempotent | game.js:43-45 | clamping an already clamped value changes nothing, for every interval |
| Rules.CheckWin | game.js:130-132 | true exactly when some paddle's score has reached WIN_SCORE |
| Numeric.ClampMonotone | game.js:43-45 | clamping preserves the order of two values |
| PongState.InitialInv | game.js:17-22 | the declared initial record has both paddles inside the field and the ball vertically inside it, the ball centred and moving at the start speed |
| Rules.Reset | game.js:47-64 | every reset centres the ball with speed 5 on both axes, heading in the drawn directions; a soft reset leaves paddles, scores and `running` alone; a full reset zeroes both scores, centres both paddles, sets `running`, and leaves no winner; neither touches the paddles' `x` or intent flags |
| Rules.ResetKeepsInv | game.js:47-63 | from paddles at their start `x` (nothing ever moves them), a full reset always, and a soft reset from in-field paddles, yields a state satisfying the invariant |
| Rules.FullResetForgetsMatch | game.js:57-63 | the outcome of a full reset depends only on the paddles' `x` and flags and the drawn directions, not on the match before it |
| Rules.TogglePause | game.js:31 | the pause key flips `running` and changes nothing else |
| Rules.TogglePauseInvolution | game.js:31 | pressing pause twice restores the state |
| Rules.StartupState | game.js:180 | the start-up `reset(true)` yields a running, in-field state with no winner and a start-speed ball; with directions (1, 1) it is exactly the declared record |
| Simulation.MovePaddle | game.js:71-77 | the paddle ends inside the field whatever its flags and prior `y`; its `y` is the clamp of the old `y` plus the net intent (down minus up, times the paddle speed); nothing else about it changes |
| Simulation.MovePaddles | game.js:71-77 | each paddle's `y` becomes the clamp of its old `y` plus its own net intent, so both end inside the field; their `x`, scores and flags, the ball and `running` are untouched |
| Simulation.MoveBall | game.js:80-81 | the ball's displacement equals its velocity, which is unchanged |
| Simulation.BounceWalls | game.js:84-88 | the ball ends vertically inside the field; on wall contact `vy` changes sign and the ball is pushed back against the wall it touched (y = 0 at the top, 590 at the bottom), otherwise nothing changes |
| Simulation.HitPos | game.js:99 | the hit offset is within [-1.1, 1.1] whenever ball and paddle overlap vertically; it is positive exactly when the ball's centre is below the paddle's, and zero exactly at the centre |
| Simulation.Spin | game.js:100-101 | after a hit `vy` minus the spin has magnitude max(2, abs(vy)) and keeps the old direction, downwards when `vy` was 0 |
| Simulation.CollideLeft | game.js:91-103 | on a left hit `vx` becomes positive with magnitude larger by exactly 0.35, the ball moves to the paddle's right edge, and `vy` is re-spun: minus the spin it has magnitude max(2, abs(vy)) and points down exactly when the old `vy` was not negative; without a hit nothing changes; `y`, paddles and `running` are never touched |
| Simulation.CollideRight | game.js:106-117 | on a right hit `vx` becomes negative with magnitude larger by exactly 0.35, the ball's right edge moves to the paddle's left edge, and `vy` is re-spun with the same size and direction rule; without a hit nothing changes |
| Simulation.Credit | game.js:121 | the scoring side gains exactly one point; nothing else changes |
| Simulation.AwardPoint | game.js:121-122 | the scorer gains one point and the other score stays; if that wins, `running` becomes false and the ball stays put; otherwise the ball is served from the centre at start speed and `running` is unchanged; paddles are untouched |
| Simulation.ScoreLeftEdge | game.js:120-123 | a ball fully past the left edge raises only the right score, by one, and then either freezes where it is (on a win) or is served from the centre, so it is never also past the right edge; otherwise nothing happens |
| Simulation.ScoreRightEdge | game.js:124-127 | a ball fully past the right edge raises only the left score, by one, and then either freezes where it is (on a win) or is served from the centre; otherwise nothing happens |
| Simulation.Moved | game.js:70-88 | after movement and wall bounces both paddles are inside the field, the ball is vertically inside it, and the horizontal speed is unchanged |
| Simulation.Collided | game.js:70-117 | after the paddle checks both paddles are still inside the field and the ball vertically inside it, and the horizontal speed has not dropped |
| Simulation.Step | game.js:67-128 | a paused tick is a no-op; a running tick leaves both paddles inside the field and the ball vertically inside it; the paddles' `x` and intent flags never change; no score drops; the scores rise by at most one in total; the game stops only with a winner |
| Properties.PausedStepIsNoOp | game.js:68 | when not running, a tick leaves the entire state unchanged |
| Properties.BothFlagsCancel | game.js:71-77 | with both flags set the paddle is only clamped, so an in-field paddle stays where it is |
| Properties.StepMovesPaddles | game.js:71-77 | in a running tick each paddle ends at the clamp of its old `y` plus its own net intent, whatever else the tick does |
| Properties.OpenPlayMovesBall | game.js:80-81 | a running tick with no wall contact, no paddle hit and no point moves the ball by exactly its velocity and keeps the velocity |
| Properties.StepKeepsInv | game.js:67-128 | a tick preserves the invariant |
| Properties.LeftHitOutcome | game.js:91-103 | after a left hit the tick ends with `vx` = abs(vx) + 0.35, the ball at the paddle's right edge, `vy` = heading times max(2, abs(vy)) plus a spin within [-1.1, 1.1], and neither a right-paddle hit nor a point |
| Properties.RightHitOutcome | game.js:106-117 | after a right hit the tick ends with `vx` = -(abs(vx) + 0.35), the ball's right edge at the paddle, the same `vy` rule, no left-paddle hit and no point |
| Properties.RightScoresAtLeftEdge | game.js:120-123 | a ball past the left edge raises only the right score, by one; a win freezes the game with the ball unmoved, otherwise play continues from a centred start-speed ball |
| Properties.LeftScoresAtRightEdge | game.js:124-127 | a ball past the right edge raises only the left score, by one, with the same win-or-serve outcome |
| Properties.NoPointNoScore | game.js:120-127 | a tick without a point ends right after the collisions, still running, with both scores unchanged |
| Properties.StopsExactlyOnWin | game.js:122 | a running game stops in a tick if and only if a point is scored and the score then meets the win threshold |
| Properties.WinIsKept | game.js:130-132 | once a paddle has reached the win score, every later tick still shows a winner |
| Properties.RallySpeedNeverDrops | game.js:91-117 | without a point the horizontal speed never drops, and a paddle hit raises it strictly |
| Play.Poll | game.js:25-40 | sampling the held keys sets exactly the four intent flags |
| Play.Run | game.js:67-128 | over any number of ticks the invariant is kept, no score drops, and the scores rise by at most one per tick |
| Play.RunConcat | game.js:67-128 | running two batches of ticks in turn equals running them together |
| Play.FrozenRunChangesNothing | game.js:68 | a paused or finished game stays frozen over any number of ticks: ball, scores and paddles stay put |
| Play.RunStopsOnlyOnWin | game.js:122 | without a pause key, a running game that has stopped after any number of ticks has a winner |
| Scenarios.FreeFlight | game.js:80-81 | a ball at (400, 300) with velocity (-5, -5) and no key held moves to (395, 295), and nothing else changes |
| Scenarios.DecidingPoint | game.js:124-126 | with the left score at 9, a ball leaving on the right makes it 10, ends the match and leaves the ball where it went out |
| Scenarios.OrdinaryPoint | game.js:120-122 | a ball leaving on the left raises the right score by one and is served again from the centre |
| Scenarios.CentreHit | game.js:91-103 | a dead-centre left hit on a flat ball gives `vx` 5.35, `vy` 2 and puts the ball at x = 42 |
| Scenarios.FullResetStartsOver | game.js:47-63 | a full reset gives scores 0 : 0, both paddles at y = 250, a running game and a ball at (400, 300) moving at speed 5 on both axes |
| Scenarios.ResumeAfterWin | game.js:31 | the pause key also resumes a match that has just been won |

## Left out

- Canvas lookup, `drawRect` and `render` (game.js:13-14, 135-170) draw
  the state and never change it. The winner text is presentation only.
- The keyboard listeners (game.js:25-40) are DOM plumbing. The pause key is
  `Rules.TogglePause`, the reset key is `Rules.Reset` with `full`, and the
  held keys are the snapshot `Play.Poll` writes before each tick.
- `loop` and `requestAnimationFrame` (game.js:173-181) only schedule work.
  `Play.Run` gives the repetition of `update` a meaning over a finite list
  of ticks, with no pause or full reset in between.
- `Math.random` (game.js:51-52) becomes the parameters `dirX` and `dirY`.
  The model says nothing about their distribution.
- IEEE-754 doubles: `BALL_SPEED_INC = 0.35` and the division in the hit
  offset are inexact in JavaScript. The model uses exact reals, so it covers
  exact arithmetic only.
- Multi-tick physics such as a fast ball tunnelling through a paddle between
  two ticks. The code does not guard against it, and the model promises
  nothing about it.

=== FILE: numeric.dfy ===
/**
 The small pieces of JavaScript arithmetic the game relies on, over exact
 `real` numbers: `Math.abs`, `Math.max`, `Math.min`, `Math.sign`, the
 `x || 1` default and the `clamp` helper built from them.
 */
module Numeric {

  /** `Math.abs` */
  function Abs(x: real): (r: real)
    ensures r >= 0.0
    ensures r == x || r == -x
  {
    if x < 0.0 then -x else x
  }

  /** `Math.max` of two numbers */
  function Max(a: real, b: real): (r: real)
    ensures r >= a && r >= b
    ensures r == a || r == b
  {
    if a < b then b else a
  }

  /** `Math.min` of two numbers */
  function Min(a: real, b: real): (r: real)
    ensures r <= a && r <= b
    ensures r == a || r == b
  {
    if a < b then a else b
  }

  /** `Math.sign`: -1, 0 or 1, the factor that turns `x` into `|x|` */
  function Sign(x: real): (r: real)
    ensures r == -1.0 || r == 0.0 || r == 1.0
    ensures r * x == Abs(x)
    ensures r == 0.0 <==> x == 0.0
  {
    if x > 0.0 then 1.0 else if x < 0.0 then -1.0 else 0.0
  }

  /** JavaScript's `x || 1` on a number: a zero is falsy and is replaced by 1 */
  function OrOne(x: real): (r: real)
    ensures r != 0.0
    ensures x == 0.0 ==> r == 1.0
    ensures x != 0.0 ==> r == x
  {
    if x == 0.0 then 1.0 else x
  }

  /**
   `clamp(v, min, max)`, written as the source writes it: `Math.max(min,
   Math.min(max, v))`. With a proper interval it lands inside it and leaves
   values already inside alone; with an empty interval the lower end wins.
   */
  function Clamp(v: real, lo: real, hi: real): (r: real)
    ensures lo <= hi ==> lo <= r <= hi
    ensures lo <= v <= hi ==> r == v
    ensures lo <= hi && v < lo ==> r == lo
    ensures v > hi ==> r == Max(lo, hi)
    ensures hi < lo ==> r == lo
  {
    Max(lo, Min(hi, v))
  }

  /** Clamping is idempotent, for every interval, empty or not. */
  lemma ClampIdempotent(v: real, lo: real, hi: real)
    ensures Clamp(Clamp(v, lo, hi), lo, hi) == Clamp(v, lo, hi)
  {
  }

  /** Clamping is monotone in the value being clamped. */
  lemma ClampMonotone(v: real, w: real, lo: real, hi: real)
    requires v <= w
    ensures Clamp(v, lo, hi) <= Clamp(w, lo, hi)
  {
  }
}

=== FILE: properties.dfy ===
/**
 Properties of one tick: what a paddle hit, a point and a win do to the
 state, stated against the intermediate states `Moved` (after movement and
 wall bounces) and `Collided` (after both paddle checks) of `Simulation`.
 */
module Properties {
  import opened Numeric
  import opened PongState
  import opened Rules
  import opened Simulation

  /** A point is scored in this tick: after the collisions the ball is past either edge. */
  predicate PointScored(s: State) {
    PastLeftEdge(Collided(s).ball) || PastRightEdge(Collided(s).ball)
  }

  /** The direction a paddle hit keeps: that of `vy`, downwards when `vy` is zero. */
  function Heading(vy: real): real {
    if vy < 0.0 then -1.0 else 1.0
  }

  /** While the game is paused or over, a tick changes nothing at all. */
  lemma PausedStepIsNoOp(s: State, dirX: Dir, dirY: Dir)
    requires !s.running
    ensures Step(s, dirX, dirY) == s
  {
  }

  /** With both intent flags set the two moves cancel: only the clamp acts. */
  lemma BothFlagsCancel(p: Paddle)
    requires p.up && p.down
    ensures MovePaddle(p).y == Clamp(p.y, 0.0, PADDLE_Y_MAX)
    ensures PaddleInField(p) ==> MovePaddle(p).y == p.y
  {
  }

  /**
   In a running tick each paddle moves by its own intent flags and is clamped
   into the field; nothing later in the tick moves it again.
   */
  lemma StepMovesPaddles(s: State, dirX: Dir, dirY: Dir)
    requires s.running
    ensures Step(s, dirX, dirY).left.y == Clamp(s.left.y + Intent(s.left), 0.0, PADDLE_Y_MAX)
    ensures Step(s, dirX, dirY).right.y == Clamp(s.right.y + Intent(s.right), 0.0, PADDLE_Y_MAX)
  {
  }

  /**
   In open play (no wall contact, no paddle hit, no point) a running tick
   moves the ball by exactly its velocity and leaves the velocity alone.
   */
  lemma OpenPlayMovesBall(s: State, dirX: Dir, dirY: Dir)
    requires s.running
    requires !TouchesWall(MoveBall(MovePaddles(s)).ball)
    requires !LeftHits(Moved(s)) && !RightHits(Moved(s)) && !PointScored(s)
    ensures var r := Step(s, dirX, dirY);
      r.ball == Ball(s.ball.x + s.ball.vx, s.ball.y + s.ball.vy, s.ball.vx, s.ball.vy)
  {
  }

  /** A tick keeps the invariant: layout, both paddles inside the field, the ball vertically inside it. */
  lemma StepKeepsInv(s: State, dirX: Dir, dirY: Dir)
    requires Inv(s)
    ensures Inv(Step(s, dirX, dirY))
  {
  }

  /**
   A left-paddle hit: the ball leaves to the right, faster by exactly the
   increment, from the paddle's right edge, with the vertical velocity
   raised to at least 2 in its old direction plus a spin of at most 1.1.
   Standing there, it can neither reach the right paddle nor score in the
   same tick.
   */
  lemma LeftHitOutcome(s: State, dirX: Dir, dirY: Dir)
    requires s.running && Layout(s)
    requires LeftHits(Moved(s))
    ensures var m := Moved(s); var r := Step(s, dirX, dirY);
      && r.ball.vx == Abs(s.ball.vx) + BALL_SPEED_INC
      && r.ball.x == LEFT_X + PADDLE_WIDTH
      && r.ball.y == m.ball.y
      && r.ball.vy == Heading(m.ball.vy) * Max(2.0, Abs(m.ball.vy)) + HitPos(m.ball.y, m.left.y)
      && -1.1 <= HitPos(m.ball.y, m.left.y) <= 1.1
      && !RightHits(CollideLeft(m))
      && !PointScored(s)
      && r.running && r.left == m.left && r.right == m.right
  {
  }

  /** The mirror image of `LeftHitOutcome` for the right paddle. */
  lemma RightHitOutcome(s: State, dirX: Dir, dirY: Dir)
    requires s.running && Layout(s)
    requires RightHits(Moved(s))
    ensures var m := Moved(s); var r := Step(s, dirX, dirY);
      && r.ball.vx == -(Abs(s.ball.vx) + BALL_SPEED_INC)
      && r.ball.x == RIGHT_X - BALL_SIZE
      && r.ball.y == m.ball.y
      && r.ball.vy == Heading(m.ball.vy) * Max(2.0, Abs(m.ball.vy)) + HitPos(m.ball.y, m.right.y)
      && -1.1 <= HitPos(m.ball.y, m.right.y) <= 1.1
      && !LeftHits(m)
      && !PointScored(s)
      && r.running && r.left == m.left && r.right == m.right
  {
  }

  /**
   The ball leaves on the left: the right paddle gets exactly one point and
   the left score stays. A win freezes the game with the ball where it went
   out; otherwise the ball is served again from the centre and play goes on.
   The paddles are not touched either way.
   */
  lemma RightScoresAtLeftEdge(s: State, dirX: Dir, dirY: Dir)
    requires s.running
    requires PastLeftEdge(Collided(s).ball)
    ensures var c := Collided(s); var r := Step(s, dirX, dirY);
      && r.right.score == s.right.score + 1
      && r.left.score == s.left.score
      && (CheckWin(r) ==> !r.running && r.ball == c.ball)
      && (!CheckWin(r) ==> r.running && BallCentred(r.ball) && StartSpeed(r.ball))
      && r.left.y == c.left.y && r.right.y == c.right.y
  {
  }

  /** The ball leaves on the right: the mirror image of `RightScoresAtLeftEdge`. */
  lemma LeftScoresAtRightEdge(s: State, dirX: Dir, dirY: Dir)
    requires s.running
    requires PastRightEdge(Collided(s).ball)
    ensures var c := Collided(s); var r := Step(s, dirX, dirY);
      && r.left.score == s.left.score + 1
      && r.right.score == s.right.score
      && (CheckWin(r) ==> !r.running && r.ball == c.ball)
      && (!CheckWin(r) ==> r.running && BallCentred(r.ball) && StartSpeed(r.ball))
      && r.left.y == c.left.y && r.right.y == c.right.y
  {
  }

  /** Without a point the tick ends right after the collisions and the scores stay. */
  lemma NoPointNoScore(s: State, dirX: Dir, dirY: Dir)
    requires s.running && !PointScored(s)
    ensures Step(s, dirX, dirY) == Collided(s)
    ensures Step(s, dirX, dirY).running
    ensures Step(s, dirX, dirY).left.score == s.left.score
    ensures Step(s, dirX, dirY).right.score == s.right.score
  {
  }

  /** A running game stops in a tick exactly when that tick's point decides the match. */
  lemma StopsExactlyOnWin(s: State, dirX: Dir, dirY: Dir)
    requires s.running
    ensures !Step(s, dirX, dirY).running <==> PointScored(s) && CheckWin(Step(s, dirX, dirY))
  {
  }

  /** Once someone has won, every later state still shows a winner. */
  lemma WinIsKept(s: State, dirX: Dir, dirY: Dir)
    requires CheckWin(s)
    ensures CheckWin(Step(s, dirX, dirY))
  {
  }

  /**
   Within a rally the horizontal speed never drops, and every paddle hit
   raises it strictly. Only a point, whose reset serves at the start speed,
   can slow the ball down.
   */
  lemma RallySpeedNeverDrops(s: State, dirX: Dir, dirY: Dir)
    requires s.running && !PointScored(s)
    ensures Abs(Step(s, dirX, dirY).ball.vx) >= Abs(s.ball.vx)
    ensures LeftHits(Moved(s)) || RightHits(CollideLeft(Moved(s))) ==>
      Abs(Step(s, dirX, dirY).ball.vx) > Abs(s.ball.vx)
  {
  }
}

=== FILE: rules.dfy ===
/**
 The game's bookkeeping around the physics: the win predicate, the soft and
 full resets, and the pause toggle. The random direction a reset draws is a
 parameter here.
 */
module Rules {
  import opened Numeric
  import opened PongState

  /** `checkWin`: some paddle has reached the win threshold. */
  predicate CheckWin(s: State)
    ensures CheckWin(s) <==> exists side: Side :: s.Score(side) >= WIN_SCORE
  {
    assert s.Score(Left) == s.left.score && s.Score(Right) == s.right.score;
    s.left.score >= WIN_SCORE || s.right.score >= WIN_SCORE
  }

  /**
   `reset(full)` with the two coin flips supplied as `dirX` and `dirY`. Every
   reset re-centres the ball with the start speed on both axes, heading in the
   given directions. A soft reset touches nothing else; a full reset also
   centres both paddles, zeroes both scores and restarts the game, but keeps
   the paddles' `x` and their intent flags.
   */
  function Reset(s: State, full: bool, dirX: Dir, dirY: Dir): (r: State)
    ensures BallCentred(r.ball)
    ensures Abs(r.ball.vx) == BALL_SPEED_START && Abs(r.ball.vy) == BALL_SPEED_START
    ensures (r.ball.vx > 0.0 <==> dirX > 0.0) && (r.ball.vy > 0.0 <==> dirY > 0.0)
    ensures !full ==> r.left == s.left && r.right == s.right && r.running == s.running
    ensures full ==> r.running && r.left.score == 0 && r.right.score == 0 && !CheckWin(r)
    ensures full ==> r.left.y == PADDLE_Y_CENTRE && r.right.y == PADDLE_Y_CENTRE
    ensures r.left.x == s.left.x && r.left.up == s.left.up && r.left.down == s.left.down
    ensures r.right.x == s.right.x && r.right.up == s.right.up && r.right.down == s.right.down
  {
    var ball := Ball(WIDTH / 2.0, HEIGHT / 2.0, dirX * BALL_SPEED_START, dirY * BALL_SPEED_START);
    var soft := s.(ball := ball);
    if full then
      soft.(left := soft.left.(y := PADDLE_Y_CENTRE, score := 0),
            right := soft.right.(y := PADDLE_Y_CENTRE, score := 0),
            running := true)
    else
      soft
  }

  /** The Space key: pause a running game, or resume a paused or finished one. */
  function TogglePause(s: State): (r: State)
    ensures r.running != s.running
    ensures r.left == s.left && r.right == s.right && r.ball == s.ball
  {
    s.(running := !s.running)
  }

  /** Every reset re-establishes the invariant (a soft one needs it beforehand for the paddles). */
  lemma ResetKeepsInv(s: State, full: bool, dirX: Dir, dirY: Dir)
    requires Layout(s)
    requires !full ==> PaddleInField(s.left) && PaddleInField(s.right)
    ensures Inv(Reset(s, full, dirX, dirY))
  {
  }

  /** A full reset forgets everything about the previous match but the paddles' `x` and flags. */
  lemma FullResetForgetsMatch(s: State, t: State, dirX: Dir, dirY: Dir)
    requires s.left.x == t.left.x && s.right.x == t.right.x
    requires s.left.up == t.left.up && s.left.down == t.left.down
    requires s.right.up == t.right.up && s.right.down == t.right.down
    ensures Reset(s, true, dirX, dirY) == Reset(t, true, dirX, dirY)
  {
  }

  /** Toggling pause twice gives back the original state. */
  lemma TogglePauseInvolution(s: State)
    ensures TogglePause(TogglePause(s)) == s
  {
  }

  /** Starting the program: the declared record followed by `reset(true)`. */
  lemma StartupState(dirX: Dir, dirY: Dir)
    ensures Reset(Initial, true, 1.0, 1.0) == Initial
    ensures var s := Reset(Initial, true, dirX, dirY);
      Inv(s) && s.running && !CheckWin(s) && StartSpeed(s.ball)
  {
  }
}

=== FILE: run.dfy ===
/**
 Many ticks in a row. Before each tick the held keys, as the four
 intent flags, are written into the state, then `Step` runs with that
 tick's reset directions. No pause toggle or full reset happens in between.
 */
module Play {
  import opened PongState
  import opened Rules
  import opened Simulation

  /** What one tick sees from outside: the held keys and the reset's two coin flips. */
  datatype Tick = Tick(leftUp: bool, leftDown: bool, rightUp: bool, rightDown: bool, dirX: Dir, dirY: Dir)

  /** Write a tick's intent flags into the paddles; nothing else changes. */
  function Poll(s: State, t: Tick): (r: State)
    ensures r.left.up == t.leftUp && r.left.down == t.leftDown
    ensures r.right.up == t.rightUp && r.right.down == t.rightDown
    ensures r.running == s.running && r.ball == s.ball
    ensures r.left.(up := false, down := false) == s.left.(up := false, down := false)
    ensures r.right.(up := false, down := false) == s.right.(up := false, down := false)
  {
    s.(left := s.left.(up := t.leftUp, down := t.leftDown),
       right := s.right.(up := t.rightUp, down := t.rightDown))
  }

  /**
   Run the ticks in order. The invariant survives any number of ticks, no
   score ever drops, and the scores together rise by at most one per tick.
   */
  function Run(s: State, ticks: seq<Tick>): (r: State)
    ensures Inv(s) ==> Inv(r)
    ensures r.left.score >= s.left.score && r.right.score >= s.right.score
    ensures r.left.score + r.right.score <= s.left.score + s.right.score + |ticks|
    decreases |ticks|
  {
    if |ticks| == 0 then s
    else Run(Step(Poll(s, ticks[0]), ticks[0].dirX, ticks[0].dirY), ticks[1..])
  }

  /** Running two batches of ticks one after the other is running them all at once. */
  lemma {:induction false} RunConcat(s: State, a: seq<Tick>, b: seq<Tick>)
    ensures Run(s, a + b) == Run(Run(s, a), b)
    decreases |a|
  {
    if |a| == 0 {
      assert a + b == b;
    } else {
      assert (a + b)[0] == a[0];
      assert (a + b)[1..] == a[1..] + b;
      RunConcat(Step(Poll(s, a[0]), a[0].dirX, a[0].dirY), a[1..], b);
    }
  }

  /**
   A paused or finished game stays frozen however many ticks pass: the ball,
   the scores and the paddles stay put; only the held keys follow the input.
   */
  lemma {:induction false} FrozenRunChangesNothing(s: State, ticks: seq<Tick>)
    requires !s.running
    ensures var r := Run(s, ticks);
      && !r.running && r.ball == s.ball
      && r.left.(up := false, down := false) == s.left.(up := false, down := false)
      && r.right.(up := false, down := false) == s.right.(up := false, down := false)
    decreases |ticks|
  {
    if |ticks| > 0 {
      var next := Step(Poll(s, ticks[0]), ticks[0].dirX, ticks[0].dirY);
      assert next == Poll(s, ticks[0]);
      FrozenRunChangesNothing(next, ticks[1..]);
    }
  }

  /** Without a pause key, a game that was running is only ever stopped by a win. */
  lemma {:induction false} RunStopsOnlyOnWin(s: State, ticks: seq<Tick>)
    requires s.running
    ensures !Run(s, ticks).running ==> CheckWin(Run(s, ticks))
    decreases |ticks|
  {
    if |ticks| > 0 {
      var next := Step(Poll(s, ticks[0]), ticks[0].dirX, ticks[0].dirY);
      if next.running {
        RunStopsOnlyOnWin(next, ticks[1..]);
      } else {
        FrozenRunChangesNothing(next, ticks[1..]);
      }
    }
  }
}

=== FILE: scenarios.dfy ===
/**
 Concrete ticks worked through on fixed states.
 */
module Scenarios {
  import opened PongState
  import opened Rules
  import opened Simulation

  /** Both paddles at their start position, no key held, with the given scores and ball. */
  function Match(leftScore: nat, rightScore: nat, ball: Ball): (s: State)
    ensures Layout(s) && s.running
    ensures s.left.score == leftScore && s.right.score == rightScore && s.ball == ball
  {
    State(true,
      Paddle(LEFT_X, PADDLE_Y_CENTRE, leftScore, false, false),
      Paddle(RIGHT_X, PADDLE_Y_CENTRE, rightScore, false, false),
      ball)
  }

  /** A ball in open play just moves by its velocity; nothing else changes. */
  lemma FreeFlight(dirX: Dir, dirY: Dir)
    ensures var s := Match(3, 4, Ball(400.0, 300.0, -5.0, -5.0));
      Step(s, dirX, dirY) == s.(ball := Ball(395.0, 295.0, -5.0, -5.0))
  {
  }

  /** The left paddle's tenth point freezes the game with the ball left beyond the right edge. */
  lemma DecidingPoint(dirX: Dir, dirY: Dir)
    ensures var r := Step(Match(9, 0, Ball(795.0, 300.0, 6.0, 0.0)), dirX, dirY);
      && r.left.score == 10 && r.right.score == 0
      && CheckWin(r) && !r.running
      && r.ball == Ball(801.0, 300.0, 6.0, 0.0)
  {
  }

  /** An ordinary point: the right paddle scores and the ball is served again from the centre. */
  lemma OrdinaryPoint()
    ensures var r := Step(Match(2, 2, Ball(-8.0, 300.0, -5.0, 5.0)), -1.0, 1.0);
      && r.left.score == 2 && r.right.score == 3 && r.running
      && r.ball == Ball(400.0, 300.0, -5.0, 5.0)
  {
  }

  /** A ball arriving dead centre on the left paddle bounces back without spin. */
  lemma CentreHit(dirX: Dir, dirY: Dir)
    ensures var r := Step(Match(0, 0, Ball(45.0, 295.0, -5.0, 0.0)), dirX, dirY);
      r.ball == Ball(42.0, 295.0, 5.35, 2.0)
  {
  }

  /** A full reset starts a new match from any state. */
  lemma FullResetStartsOver(s: State, dirX: Dir, dirY: Dir)
    ensures var r := Reset(s, true, dirX, dirY);
      && r.left.score == 0 && r.right.score == 0
      && r.left.y == 250.0 && r.right.y == 250.0
      && r.running
      && r.ball.x == 400.0 && r.ball.y == 300.0
      && (r.ball.vx == 5.0 || r.ball.vx == -5.0) && (r.ball.vy == 5.0 || r.ball.vy == -5.0)
  {
  }

  /** The pause key also un-freezes a finished match: a won game can be resumed without a reset. */
  lemma ResumeAfterWin()
    ensures var won := Step(Match(9, 0, Ball(795.0, 300.0, 6.0, 0.0)), 1.0, 1.0);
      && !won.running && CheckWin(won)
      && TogglePause(won).running
  {
  }
}

=== FILE: simulation.dfy ===
/**
 One tick of the game (`update`), split into the phases the source runs in
 order: move the paddles, move the ball, bounce off the top and bottom walls,
 resolve the left and then the right paddle, then award a point at either
 edge. `Step` composes them; the reset a point may trigger takes its two
 directions as parameters.
 */
module Simulation {
  import opened Numeric
  import opened PongState
  import opened Rules

  /** Net vertical displacement the intent flags ask for in one tick. */
  function Intent(p: Paddle): real {
    (if p.down then PADDLE_SPEED else 0.0) - (if p.up then PADDLE_SPEED else 0.0)
  }

  /**
   Move one paddle: up subtracts the paddle speed, down adds it, then the
   result is clamped into the field. The paddle ends inside the field whatever
   its flags and prior position, and moves as asked whenever that stays inside.
   */
  function MovePaddle(p: Paddle): (r: Paddle)
    ensures PaddleInField(r)
    ensures r.y == Clamp(p.y + Intent(p), 0.0, PADDLE_Y_MAX)
    ensures r.x == p.x && r.score == p.score && r.up == p.up && r.down == p.down
  {
    var y1 := if p.up then p.y - PADDLE_SPEED else p.y;
    var y2 := if p.down then y1 + PADDLE_SPEED else y1;
    p.(y := Clamp(y2, 0.0, PADDLE_Y_MAX))
  }

  /** Move both paddles, each by its own intent flags, then clamp each into the field. */
  function MovePaddles(s: State): (r: State)
    ensures PaddleInField(r.left) && PaddleInField(r.right)
    ensures r.left.y == Clamp(s.left.y + Intent(s.left), 0.0, PADDLE_Y_MAX)
    ensures r.right.y == Clamp(s.right.y + Intent(s.right), 0.0, PADDLE_Y_MAX)
    ensures r.left.(y := 0.0) == s.left.(y := 0.0) && r.right.(y := 0.0) == s.right.(y := 0.0)
    ensures r.running == s.running && r.ball == s.ball
  {
    s.(left := MovePaddle(s.left), right := MovePaddle(s.right))
  }

  /** Add the velocity to the ball's position. */
  function MoveBall(s: State): (r: State)
    ensures r.ball.x - s.ball.x == s.ball.vx && r.ball.y - s.ball.y == s.ball.vy
    ensures r.ball.vx == s.ball.vx && r.ball.vy == s.ball.vy
    ensures r.running == s.running && r.left == s.left && r.right == s.right
  {
    s.(ball := s.ball.(x := s.ball.x + s.ball.vx, y := s.ball.y + s.ball.vy))
  }

  /** The ball touches or crosses the top or the bottom wall. */
  predicate TouchesWall(b: Ball) {
    b.y <= 0.0 || b.y + BALL_SIZE >= HEIGHT
  }

  /**
   Top and bottom walls: on contact the vertical velocity flips and the ball
   is pushed back against the wall it touched. Either way the ball ends
   vertically inside the field.
   */
  function BounceWalls(s: State): (r: State)
    ensures BallInField(r.ball)
    ensures TouchesWall(s.ball) ==> r.ball.vy == -s.ball.vy
    ensures TouchesWall(s.ball) ==> r.ball.y == (if s.ball.y <= 0.0 then 0.0 else BALL_Y_MAX)
    ensures !TouchesWall(s.ball) ==> r == s
    ensures r.ball.x == s.ball.x && r.ball.vx == s.ball.vx
    ensures r.running == s.running && r.left == s.left && r.right == s.right
  {
    if TouchesWall(s.ball) then
      s.(ball := s.ball.(vy := s.ball.vy * -1.0, y := Clamp(s.ball.y, 0.0, BALL_Y_MAX)))
    else
      s
  }

  /** The ball's box and the paddle's box overlap vertically (edges touching count). */
  predicate VerticalOverlap(ballY: real, paddleY: real) {
    ballY + BALL_SIZE >= paddleY && ballY <= paddleY + PADDLE_HEIGHT
  }

  /**
   Where the ball met the paddle, relative to the paddle's centre, in units
   of half a paddle: negative above the centre, positive below. When the
   boxes overlap it lies within [-1.1, 1.1].
   */
  function HitPos(ballY: real, paddleY: real): (r: real)
    ensures VerticalOverlap(ballY, paddleY) ==> -1.1 <= r <= 1.1
    ensures r > 0.0 <==> ballY + BALL_SIZE / 2.0 > paddleY + PADDLE_HEIGHT / 2.0
    ensures r == 0.0 <==> ballY + BALL_SIZE / 2.0 == paddleY + PADDLE_HEIGHT / 2.0
  {
    ((ballY + BALL_SIZE / 2.0) - (paddleY + PADDLE_HEIGHT / 2.0)) / (PADDLE_HEIGHT / 2.0)
  }

  /**
   The vertical velocity after a paddle hit: keep the direction (down when
   `vy` was zero), raise the magnitude to at least 2, then add the spin.
   */
  function Spin(vy: real, hitPos: real): (r: real)
    ensures Abs(r - hitPos) == Max(2.0, Abs(vy))
    ensures vy >= 0.0 ==> r - hitPos >= 2.0
    ensures vy < 0.0 ==> r - hitPos <= -2.0
  {
    Sign(OrOne(vy)) * Max(2.0, Abs(vy)) + hitPos
  }

  /** The ball's left edge lies within the left paddle's width and the boxes overlap vertically. */
  predicate LeftHits(s: State) {
    && s.ball.x <= s.left.x + PADDLE_WIDTH
    && s.ball.x >= s.left.x
    && VerticalOverlap(s.ball.y, s.left.y)
  }

  /** The ball's right edge lies within the right paddle's width and the boxes overlap vertically. */
  predicate RightHits(s: State) {
    && s.ball.x + BALL_SIZE >= s.right.x
    && s.ball.x + BALL_SIZE <= s.right.x + PADDLE_WIDTH
    && VerticalOverlap(s.ball.y, s.right.y)
  }

  /**
   Left paddle: on a hit the ball heads right, strictly faster by exactly the
   speed increment, picks up spin, and is moved to the paddle's right edge.
   */
  function CollideLeft(s: State): (r: State)
    ensures LeftHits(s) ==> r.ball.vx > 0.0 && Abs(r.ball.vx) - Abs(s.ball.vx) == BALL_SPEED_INC
    ensures LeftHits(s) ==> r.ball.x == s.left.x + PADDLE_WIDTH
    ensures LeftHits(s) ==> Abs(r.ball.vy - HitPos(s.ball.y, s.left.y)) == Max(2.0, Abs(s.ball.vy))
    ensures LeftHits(s) ==> (s.ball.vy >= 0.0 <==> r.ball.vy - HitPos(s.ball.y, s.left.y) > 0.0)
    ensures !LeftHits(s) ==> r == s
    ensures r.ball.y == s.ball.y
    ensures r.running == s.running && r.left == s.left && r.right == s.right
  {
    if LeftHits(s) then
      var vx := Abs(s.ball.vx) + BALL_SPEED_INC;
      var hitPos := HitPos(s.ball.y, s.left.y);
      var vy := Spin(s.ball.vy, hitPos);
      s.(ball := s.ball.(vx := vx, vy := vy, x := s.left.x + PADDLE_WIDTH))
    else
      s
  }

  /**
   Right paddle: on a hit the ball heads left, strictly faster by exactly the
   speed increment, picks up spin, and its right edge is moved to the
   paddle's left edge.
   */
  function CollideRight(s: State): (r: State)
    ensures RightHits(s) ==> r.ball.vx < 0.0 && Abs(r.ball.vx) - Abs(s.ball.vx) == BALL_SPEED_INC
    ensures RightHits(s) ==> r.ball.x + BALL_SIZE == s.right.x
    ensures RightHits(s) ==> Abs(r.ball.vy - HitPos(s.ball.y, s.right.y)) == Max(2.0, Abs(s.ball.vy))
    ensures RightHits(s) ==> (s.ball.vy >= 0.0 <==> r.ball.vy - HitPos(s.ball.y, s.right.y) > 0.0)
    ensures !RightHits(s) ==> r == s
    ensures r.ball.y == s.ball.y
    ensures r.running == s.running && r.left == s.left && r.right == s.right
  {
    if RightHits(s) then
      var vx := -Abs(s.ball.vx) - BALL_SPEED_INC;
      var hitPos := HitPos(s.ball.y, s.right.y);
      var vy := Spin(s.ball.vy, hitPos);
      s.(ball := s.ball.(vx := vx, vy := vy, x := s.right.x - BALL_SIZE))
    else
      s
  }

  /** Give `side` one point. */
  function Credit(s: State, side: Side): (r: State)
    ensures r.Score(side) == s.Score(side) + 1
    ensures r.Score(side.Other()) == s.Score(side.Other())
    ensures r.running == s.running && r.ball == s.ball
    ensures r.left.(score := 0) == s.left.(score := 0)
    ensures r.right.(score := 0) == s.right.(score := 0)
  {
    if side.Left? then s.(left := s.left.(score := s.left.score + 1))
    else s.(right := s.right.(score := s.right.score + 1))
  }

  /**
   `scorer` wins a point. If that decides the match the game freezes with the
   ball where it is; otherwise a soft reset serves a new ball and play goes on.
   */
  function AwardPoint(s: State, scorer: Side, dirX: Dir, dirY: Dir): (r: State)
    ensures r.Score(scorer) == s.Score(scorer) + 1
    ensures r.Score(scorer.Other()) == s.Score(scorer.Other())
    ensures CheckWin(r) ==> !r.running && r.ball == s.ball
    ensures !CheckWin(r) ==> r.running == s.running && BallCentred(r.ball) && StartSpeed(r.ball)
    ensures r.left.(score := 0) == s.left.(score := 0)
    ensures r.right.(score := 0) == s.right.(score := 0)
  {
    var scored := Credit(s, scorer);
    if CheckWin(scored) then scored.(running := false) else Reset(scored, false, dirX, dirY)
  }

  /** The ball has fully left the field on the left: the right paddle scores. */
  predicate PastLeftEdge(b: Ball) {
    b.x + BALL_SIZE < 0.0
  }

  /** The ball has fully left the field on the right: the left paddle scores. */
  predicate PastRightEdge(b: Ball) {
    b.x > WIDTH
  }

  /**
   Left edge: a ball fully out on the left gives the right paddle exactly one
   point and leaves the ball either frozen where it is or served from the
   centre, so it cannot also count as out on the right.
   */
  function ScoreLeftEdge(s: State, dirX: Dir, dirY: Dir): (r: State)
    ensures PastLeftEdge(s.ball) ==> r.right.score == s.right.score + 1 && r.left.score == s.left.score
    ensures PastLeftEdge(s.ball) ==> !PastRightEdge(r.ball)
    ensures PastLeftEdge(s.ball) && CheckWin(r) ==> !r.running && r.ball == s.ball
    ensures PastLeftEdge(s.ball) && !CheckWin(r) ==> r.running == s.running && BallCentred(r.ball)
    ensures !PastLeftEdge(s.ball) ==> r == s
  {
    if PastLeftEdge(s.ball) then AwardPoint(s, Right, dirX, dirY) else s
  }

  /** Right edge: the mirror image of `ScoreLeftEdge`, giving the left paddle the point. */
  function ScoreRightEdge(s: State, dirX: Dir, dirY: Dir): (r: State)
    ensures PastRightEdge(s.ball) ==> r.left.score == s.left.score + 1 && r.right.score == s.right.score
    ensures PastRightEdge(s.ball) ==> !PastLeftEdge(r.ball)
    ensures PastRightEdge(s.ball) && CheckWin(r) ==> !r.running && r.ball == s.ball
    ensures PastRightEdge(s.ball) && !CheckWin(r) ==> r.running == s.running && BallCentred(r.ball)
    ensures !PastRightEdge(s.ball) ==> r == s
  {
    if PastRightEdge(s.ball) then AwardPoint(s, Left, dirX, dirY) else s
  }

  /** The state after movement and wall bounces, before the paddles are checked. */
  function Moved(s: State): (r: State)
    ensures PaddleInField(r.left) && PaddleInField(r.right) && BallInField(r.ball)
    ensures r.running == s.running && Abs(r.ball.vx) == Abs(s.ball.vx)
  {
    BounceWalls(MoveBall(MovePaddles(s)))
  }

  /** The state after both paddle collisions, before points are awarded. */
  function Collided(s: State): (r: State)
    ensures PaddleInField(r.left) && PaddleInField(r.right) && BallInField(r.ball)
    ensures r.running == s.running && r.left == Moved(s).left && r.right == Moved(s).right
    ensures Abs(r.ball.vx) >= Abs(s.ball.vx)
  {
    CollideRight(CollideLeft(Moved(s)))
  }

  /**
   `update`: one tick. Paused, it changes nothing. Running, it keeps both
   paddles inside the field and the ball vertically inside it, never touches
   the paddles' `x` or the intent flags, never lowers a score, raises at most one score by one, and only
   stops the game when someone has won.
   */
  function Step(s: State, dirX: Dir, dirY: Dir): (r: State)
    ensures !s.running ==> r == s
    ensures s.running ==> PaddleInField(r.left) && PaddleInField(r.right) && BallInField(r.ball)
    ensures r.left.x == s.left.x && r.right.x == s.right.x
    ensures r.left.up == s.left.up && r.left.down == s.left.down
    ensures r.right.up == s.right.up && r.right.down == s.right.down
    ensures r.left.score >= s.left.score && r.right.score >= s.right.score
    ensures r.left.score + r.right.score <= s.left.score + s.right.score + 1
    ensures s.running && !r.running ==> CheckWin(r)
  {
    if !s.running then s
    else
      var c := Collided(s);
      var l := ScoreLeftEdge(c, dirX, dirY);
      assert PastLeftEdge(c.ball) ==> !PastRightEdge(l.ball);
      assert PastRightEdge(l.ball) ==> l == c;
      ScoreRightEdge(l, dirX, dirY)
  }
}

=== FILE: state.dfy ===
/**
 The game's configuration and its one state record: two paddles, a ball and
 the `running` flag. Positions and velocities are exact reals; scores are
 natural numbers, since they start at zero and are only ever incremented or
 zeroed.
 */
module PongState {

  // Field geometry, sizes, speeds and the win threshold (game.js lines 2-10).
  const WIDTH: real := 800.0
  const HEIGHT: real := 600.0
  const PADDLE_WIDTH: real := 12.0
  const PADDLE_HEIGHT: real := 100.0
  const PADDLE_SPEED: real := 6.0
  const BALL_SIZE: real := 10.0
  const BALL_SPEED_START: real := 5.0
  const BALL_SPEED_INC: real := 0.35
  const WIN_SCORE: nat := 10

  /** The fixed horizontal positions the two paddles are created with. */
  const LEFT_X: real := 30.0
  const RIGHT_X: real := WIDTH - 30.0 - PADDLE_WIDTH

  /** Highest `y` a paddle's top edge may take. */
  const PADDLE_Y_MAX: real := HEIGHT - PADDLE_HEIGHT
  /** Highest `y` the ball's top edge may take. */
  const BALL_Y_MAX: real := HEIGHT - BALL_SIZE
  /** The `y` of a paddle centred vertically on the field. */
  const PADDLE_Y_CENTRE: real := HEIGHT / 2.0 - PADDLE_HEIGHT / 2.0

  /** A direction along one axis, drawn at random by a reset: -1 or 1. */
  type Dir = d: real | d == -1.0 || d == 1.0 witness 1.0

  /** Which paddle: the one on the left or the one on the right. */
  datatype Side = Left | Right {
    function Other(): (o: Side)
      ensures o != this
    {
      if Left? then Right else Left
    }
  }

  /** A paddle: fixed `x`, moving `y` (top edge), score and the two intent flags. */
  datatype Paddle = Paddle(x: real, y: real, score: nat, up: bool, down: bool)

  /** The ball: top-left corner of its box and its per-tick velocity. */
  datatype Ball = Ball(x: real, y: real, vx: real, vy: real)

  /** The whole match: pause / game-over flag, both paddles and the ball. */
  datatype State = State(running: bool, left: Paddle, right: Paddle, ball: Ball) {

    function PaddleOf(side: Side): Paddle {
      if side.Left? then left else right
    }

    function Score(side: Side): nat {
      PaddleOf(side).score
    }
  }

  /** The record as the program declares it before its first full reset (game.js lines 17-22). */
  const Initial: State := State(
    true,
    Paddle(LEFT_X, PADDLE_Y_CENTRE, 0, false, false),
    Paddle(RIGHT_X, PADDLE_Y_CENTRE, 0, false, false),
    Ball(WIDTH / 2.0, HEIGHT / 2.0, BALL_SPEED_START, BALL_SPEED_START))

  /** The paddles sit at the horizontal positions they were created with. */
  predicate Layout(s: State) {
    s.left.x == LEFT_X && s.right.x == RIGHT_X
  }

  /** A paddle lies entirely inside the field. */
  predicate PaddleInField(p: Paddle) {
    0.0 <= p.y <= PADDLE_Y_MAX
  }

  /** The ball lies vertically inside the field. */
  predicate BallInField(b: Ball) {
    0.0 <= b.y <= BALL_Y_MAX
  }

  /** The invariant every state the game reaches keeps. */
  predicate Inv(s: State) {
    && Layout(s)
    && PaddleInField(s.left)
    && PaddleInField(s.right)
    && BallInField(s.ball)
  }

  /** The ball sits at the centre of the field. */
  predicate BallCentred(b: Ball) {
    b.x == WIDTH / 2.0 && b.y == HEIGHT / 2.0
  }

  /** Both velocity components have the start speed, in some diagonal direction. */
  predicate StartSpeed(b: Ball) {
    (b.vx == BALL_SPEED_START || b.vx == -BALL_SPEED_START) &&
    (b.vy == BALL_SPEED_START || b.vy == -BALL_SPEED_START)
  }

  /** The initial record already satisfies the invariant. */
  lemma InitialInv()
    ensures Inv(Initial)
    ensures BallCentred(Initial.ball) && StartSpeed(Initial.ball)
  {
  }
}
